=== FILE: README.md ===
# Elimination-only Sudoku solver

A Dafny model of the solver in `src/lib.rs`. A puzzle is a 9×9 grid of
cells. Each cell is either `Solved(token)` or `Unsolved(candidates)`, where a
token is one of nine symbols and the candidates are a set of tokens. The
solver prunes and promotes until nothing more happens:

- `row_for`, `column_for` and `block_for` give the tokens of the `Solved`
  cells of one row, one column or one 3×3 block.
- `refine` removes those three sets from every `Unsolved` cell.
- `step` turns every `Unsolved` cell with exactly one candidate into
  `Solved`, and returns how many cells it turned.
- `solve` runs `refine` then `step` until a step turns nothing.

The tests build grids from digit matrices with `token_from_u8` and
`new_puzzle`. They are modelled as the way a grid is created.

Layout:

- `tokens.dfy`, module `Tokens`: the `Token` enum and its digits. It also
  holds `First`, the token that iterating a candidate set yields first, and
  the byte type `U8`.
- `puzzle.dfy`, module `Puzzle`: `Cell`, the grid, and the three unions
  (`RowFor`, `ColumnFor`, `BlockFor`). Each union's contract says exactly
  which tokens it holds. It also counts `Solved` cells.
- `solver.dfy`, module `Solver`: `Refine`, `Step` and `Solve` as loops over a
  grid value, in the same row-major order as the source. Each operation has
  a pure reference definition and lemmas about it: `Pruned` and `PruneAll`
  for one cell and the whole grid of `refine`, `Promote` and `PromoteAll`
  for `step`, and `Rounds` for `solve`.
- `setup.dfy`, module `Setup`: `TokenFromDigit`, `NewPuzzle`, the tests'
  fixture puzzles 1 and 2, the union checks on puzzle 1, and
  `BlankGridStalls`, which states what `solve` does to an all-blank grid.

`EnumSet<Token>` is modelled as `set<Token>`. The in-place writes of
`refine` and `step` become updates of a local grid value that the method
returns. The grid type `[[Cell; 9]; 9]` becomes `seq<seq<Cell>>` with the
precondition `IsGrid` (9 rows of 9 cells).

Two facts carry the proof:

1. **The unions do not change while `refine` runs.** `refine` overwrites only
   `Unsolved` cells, and only with `Unsolved` cells. The unions read only
   `Solved` cells (`UnionsAgree`). So pruning each cell against the partly
   updated grid gives the same result as pruning it against the grid the
   sweep started from (`PruneInPlace`, `Refine`).
2. **`solve` terminates.** `refine` keeps the number of `Solved` cells. A
   step that returns `n` raises that number by exactly `n`, and it can never
   exceed 81. So `81 − #Solved` strictly decreases on every round that does
   not stop the loop. This is the `decreases` clause of `Solve`.

## Model

| member | source | states |
|---|---|---|
| Tokens.First | src/lib.rs:83 | The token `candidates.iter().next()` returns from a non-empty set is a member of the set, and no member has a smaller digit. |
| Tokens.SingletonIsFirst | src/lib.rs:82-83 | A set of size 1 is exactly the singleton of its first token, so `step` writes the set's only element. |
| Puzzle.CollectExact | src/lib.rs:33-39 | Folding `row \|= token` over a sequence of cells gives exactly the tokens `t` for which `Solved(t)` occurs in the sequence. |
| Puzzle.RowFor | src/lib.rs:32-40 | `row_for(y)` holds token `t` if and only if some `x` in 0..9 has `grid[y][x] == Solved(t)`. |
| Puzzle.ColumnFor | src/lib.rs:41-49 | `column_for(x)` holds token `t` if and only if some `y` in 0..9 has `grid[y][x] == Solved(t)`. |
| Puzzle.BlockCellPosition | src/lib.rs:52-56 | Every index `block_for` reads (`x_offset + x`, `y_offset + y` for `x`, `y` in 0..3) lies inside the grid and in the same 3×3 block as the queried cell. |
| Puzzle.BlockCellIndex | src/lib.rs:52-56 | Every cell of the queried cell's block is read by `block_for` at some inner-loop position. |
| Puzzle.BlockCellsExact | src/lib.rs:50-62 | The `\|=` fold over the nine cells `block_for` visits gives exactly the tokens of the `Solved` cells `(cx, cy)` with `cx/3 == x/3` and `cy/3 == y/3`. |
| Puzzle.BlockFor | src/lib.rs:50-62 | `block_for(x, y)` holds token `t` if and only if some cell `(cx, cy)` with `cx/3 == x/3` and `cy/3 == y/3` is `Solved(t)`. |
| Puzzle.BlockForSameBlock | src/lib.rs:52-53 | `block_for` depends only on `x/3` and `y/3`. Any two cells of one block see the same union, as the test `block_for(0,0) == block_for(2,2)` expects. |
| Puzzle.UnionsAgree | src/lib.rs:32-62 | The unions read only `Solved` cells. Two grids that agree on their `Solved` cells have equal row, column and block unions at a given index. |
| Puzzle.UnionsAgreeEverywhere | src/lib.rs:32-62 | Two grids that agree on their `Solved` cells have equal unions at every index. |
| Puzzle.CountSolvedUpdate | src/lib.rs:83-84 | Overwriting one cell of a row changes the row's number of `Solved` cells by exactly the change in that cell. |
| Puzzle.SolvedCountUpdate | src/lib.rs:83-84 | Overwriting one cell of the grid changes the grid's number of `Solved` cells by exactly the change in that cell. |
| Puzzle.CountSolvedSameTags | src/lib.rs:68-71 | Two rows with `Solved` cells in the same places have the same number of `Solved` cells. |
| Puzzle.SolvedCountSameTags | src/lib.rs:68-71 | Two grids with `Solved` cells in the same places have the same number of `Solved` cells. |
| Puzzle.CountSolvedGrows | src/lib.rs:81-85 | If every `Solved` cell of one row is `Solved` in another, the second has at least as many `Solved` cells. It has strictly more if some `Unsolved` cell became `Solved`. |
| Puzzle.SolvedCountGrows | src/lib.rs:79-88 | The same for whole grids: promoting cells never lowers the count, and promoting at least one raises it. |
| Puzzle.GridSolvedBound | src/lib.rs:78-89 | A grid has at most 81 `Solved` cells. This bounds the `step` counter and the `solve` loop. |
| Solver.Promote | src/lib.rs:81-85 | One cell under `step`: an `Unsolved` cell whose candidate set has size 1 becomes `Solved(t)` with `{t}` equal to that set. Every other cell is returned unchanged. |
| Solver.Pruned | src/lib.rs:68-71 | One cell under `refine`, read against the grid's own unions: a `Solved` cell is kept as it is. An `Unsolved` cell stays `Unsolved` and keeps exactly those candidates that no `Solved` cell of its row, its column or its block holds. |
| Solver.PrunedProperties | src/lib.rs:65-75 | Compared with the grid it was pruned from, a pruned grid keeps every `Solved` cell and keeps every cell's tag. Each `Unsolved` cell keeps a subset of its candidates. The row, column and block unions are unchanged at every index. No `Unsolved` cell keeps a token from its own row, column or block union. |
| Solver.PrunedSolvedCount | src/lib.rs:65-75 | `refine` never fixes or frees a cell, so it keeps the number of `Solved` cells. |
| Solver.PruneInPlace | src/lib.rs:68-71 | Take a sweep part-way through, with the cells before `(x, y)` already pruned. Pruning cell `(x, y)` against the unions of this partly updated grid gives the same cell as pruning it against the pre-sweep grid. It also keeps the two grids' `Solved` cells equal. |
| Solver.SettledIsPruneFixedPoint | src/lib.rs:70 | Suppose no `Unsolved` cell shares a candidate with its unions. Then pruning gives back the same grid. |
| Solver.Refine | src/lib.rs:65-75 | The row-major in-place sweep reads the grid as it is being mutated. It returns exactly the grid in which every `Unsolved(c)` becomes `Unsolved(c − row(y) − col(x) − block(x,y))`, using the pre-sweep unions. `Solved` cells are untouched. |
| Solver.PromoteInPlace | src/lib.rs:81-85 | Visiting cell `(x, y)` in the step sweep promotes the cell exactly when it is a singleton. It adds 1 to the counter exactly then, and the new count is at most 81. |
| Solver.Step | src/lib.rs:77-90 | Every cell becomes `Promote` of itself: singletons become `Solved` with their only candidate, and all other cells are untouched. The number of `Solved` cells grows by exactly the returned count, so the count is the number of cells changed. The count is 0 exactly when the grid has no singleton, and it is at most 81, so the `u8` never overflows. |
| Solver.RoundNarrows | src/lib.rs:93-98 | Each refine-then-step round only narrows cells. A `Solved` cell stays the same. An `Unsolved` cell only loses candidates, or becomes `Solved` with one of them. |
| Solver.NarrowingGrowsUnions | src/lib.rs:92-99 | If every cell of one grid narrows the same cell of another, each row, column and block union of the first is contained in the same union of the second, because `Solved` cells are kept. |
| Solver.RoundKeepsUnblocked | src/lib.rs:93-98 | A refine-then-step round removes no initial candidate that the unions of the resulting grid do not hold. The invariant is kept from round to round. |
| Solver.SettledCandidates | src/lib.rs:95-97 | On the grid `solve` stops at, each `Unsolved` cell holds exactly its initial candidates less the tokens in its row, column and block unions. |
| Solver.IdleStep | src/lib.rs:95-97 | A step over a grid with no singleton returns the same grid, so the round on which `step` returns 0 leaves the refined grid as it is. |
| Solver.PruneAll | src/lib.rs:65-75 | The grid one `refine` sweep leaves behind, as a value: every cell is pruned against the unions of the grid before the sweep (`PrunedFrom`). |
| Solver.PromoteAll | src/lib.rs:76-89 | The grid one `step` sweep leaves behind, as a value: every cell is promoted if it is a singleton and kept otherwise (`PromotedFrom`). |
| Solver.UnsolvedIsSettled | src/lib.rs:34-56 | A grid with no `Solved` cell has empty row, column and block unions, so it is settled. |
| Solver.PromoteRaisesCount | src/lib.rs:81-85 | A step over a grid that holds a singleton strictly raises the number of `Solved` cells. |
| Solver.Rounds | src/lib.rs:92-99 | A reference definition of `solve` as a recursion over rounds: prune every cell, promote every singleton, and stop after the first round whose pruned grid has no singleton. It terminates because each further round raises the `Solved` count, and it returns a 9×9 grid. What that grid holds is stated on `Solve`, whose result equals it. |
| Solver.RoundsStep | src/lib.rs:93-98 | A round taken by the `Refine` and `Step` sweeps follows `Rounds`. If the refined grid has no singleton, which is when `step` returns 0, the stepped grid is the result. Otherwise the result is that of the rounds from the stepped grid. |
| Solver.RoundsStalled | src/lib.rs:94-96 | A settled grid without singletons comes back from `solve` unchanged: `refine` strikes nothing, `step` returns 0, and no guess is made. |
| Solver.Solve | src/lib.rs:92-99 | The loop terminates, with `81 − #Solved` as the measure. The result narrows the input cell by cell: every initially `Solved(t)` cell is still `Solved(t)`. No `Unsolved` cell has exactly one candidate, and every `Unsolved` cell's candidates avoid its row, column and block unions. Conversely, each `Unsolved` cell keeps exactly its initial candidates less those unions, so nothing else is removed. The result is exactly `Rounds(puzzle)`, so it is fully determined by the input. A settled input without singletons is returned unchanged. |
| Setup.TokenFromDigit | src/lib.rs:107-120 | `token_from_u8(n)` succeeds exactly for `n` in 1..9, with the token whose digit is `n`. Any other byte is rejected with `n` as the error. |
| Setup.TokenFromDigitRoundTrip | src/lib.rs:108-117 | Mapping a token to its digit and back gives the same token. |
| Setup.NewPuzzle | src/lib.rs:122-132 | Construction succeeds exactly when every entry is at most 9. A 0 becomes `Unsolved` with all nine tokens, and a digit `d` becomes `Solved` with the token of digit `d`. Otherwise the error names the first entry above 9 in row-major order. |
| Setup.BlankGridStalls | src/lib.rs:92-99 | The all-blank grid, which an all-zero matrix loads (src/lib.rs:123), is returned unchanged by `solve`. |
| Setup.FixturesAreValid | src/lib.rs:134-160 | Both fixture matrices are 9×9 and contain only digits 0..9, so building them succeeds. |
| Setup.RowForPuzzle1 | src/lib.rs:162-165 | In fixture puzzle 1, `row_for(0)` is {8, 5, 4}. |
| Setup.ColumnForPuzzle1 | src/lib.rs:167-170 | In fixture puzzle 1, `column_for(0)` is {8, 9, 4}. |
| Setup.TopLeftBlockPuzzle1 | src/lib.rs:174-177 | In fixture puzzle 1, `block_for(0, 0)` is {8, 5, 2}. |
| Setup.TopLeftBlockFromLastCellPuzzle1 | src/lib.rs:178-181 | In fixture puzzle 1, `block_for(2, 2)` is {8, 5, 2}. |
| Setup.CentreBlockPuzzle1 | src/lib.rs:182-185 | In fixture puzzle 1, `block_for(3, 3)` is {9, 7, 5}. |

## Left out

- The tests `test_1` and `test_2` (src/lib.rs:188-222) are not modelled. `Solve` returns exactly `Rounds(puzzle)`, but checking the two expected solution grids would mean unfolding `Rounds` round by round over 81 cells of fixture puzzles 1 and 2, which is beyond what the verifier evaluates.
- Fixture puzzle 2 (src/lib.rs:148-160) appears only in `FixturesAreValid`. No union test uses it.
- `benches/solve.rs` is a benchmark harness. Its grid type does not match the signature of `solve`, so it describes no behaviour of the library.
- The `enumset` crate is not modelled beyond set union, difference, size and first element. Nor is the `EnumSetType` derive, or the `Debug`, `Clone`, `Copy` and `PartialEq` derives, which are formatting and equality plumbing.
- Contradiction detection and incremental union caches are absent from the code, so the model has neither. An `Unsolved` cell with no candidates simply stays as it is.
- Indices passed to `row_for`, `column_for` and `block_for` are required to be below 9. In Rust a larger index panics on the array bound. Every caller in the library passes loop indices in 0..9.
- A `panic!` in `token_from_u8` is modelled as an `Err` result. `NewPuzzle` returns that error instead of aborting, and the partly built grid is dropped, as it is when the test panics.

=== FILE: puzzle.dfy ===
/** The grid of cells and the three unit unions read from it: the tokens of
    the `Solved` cells of one row, one column or one 3x3 block. */
module Puzzle {
  import opened Tokens

  /** A cell either holds its final token or the tokens still possible. */
  datatype Cell = Solved(token: Token) | Unsolved(candidates: set<Token>)

  /** Side of a block, and of the grid in cells. */
  const Block: nat := 3
  const Side: nat := Block * Block

  /** Rows indexed by `y`, each a sequence of cells indexed by `x`. */
  type Grid = seq<seq<Cell>>

  /** The shape of a puzzle: `Side` rows of `Side` cells. */
  predicate IsGrid(g: Grid) {
    |g| == Side && forall y :: 0 <= y < Side ==> |g[y]| == Side
  }

  /** Cell `(i, j)` comes before cell `(x, y)` in the row-major order in
      which every sweep over the grid visits cells. */
  predicate Before(i: nat, j: nat, x: nat, y: nat) {
    j < y || (j == y && i < x)
  }

  /** The union of the tokens of the `Solved` cells of `cells`, accumulated
      from the first cell to the last. */
  function Collect(cells: seq<Cell>): set<Token> {
    if cells == [] then {}
    else
      var last := cells[|cells| - 1];
      Collect(cells[..|cells| - 1]) + (if last.Solved? then {last.token} else {})
  }

  /** `Collect` holds exactly the tokens of the `Solved` cells. */
  lemma {:induction false} CollectExact(cells: seq<Cell>)
    ensures forall t :: t in Collect(cells) <==> Solved(t) in cells
    decreases |cells|
  {
    if cells != [] {
      var init, last := cells[..|cells| - 1], cells[|cells| - 1];
      assert cells == init + [last];
      CollectExact(init);
    }
  }

  /** Token `t` is placed in row `y`: some cell of the row is `Solved(t)`. */
  predicate InRow(g: Grid, y: nat, t: Token)
    requires IsGrid(g) && y < Side
  {
    exists x :: 0 <= x < Side && g[y][x] == Solved(t)
  }

  /** Token `t` is placed in column `x`. */
  predicate InColumn(g: Grid, x: nat, t: Token)
    requires IsGrid(g) && x < Side
  {
    exists y :: 0 <= y < Side && g[y][x] == Solved(t)
  }

  /** Token `t` is placed in the block holding cell `(x, y)`. */
  predicate InBlock(g: Grid, x: nat, y: nat, t: Token)
    requires IsGrid(g) && x < Side && y < Side
  {
    exists cx, cy :: 0 <= cx < Side && 0 <= cy < Side && SameBlock(x, y, cx, cy) && g[cy][cx] == Solved(t)
  }

  /** The tokens already placed in row `y`. */
  function RowFor(g: Grid, y: nat): (row: set<Token>)
    requires IsGrid(g) && y < Side
    ensures forall t :: t in row <==> InRow(g, y, t)
  {
    CollectExact(g[y]);
    Collect(g[y])
  }

  /** The column `x` of `g`, from top to bottom. */
  function Column(g: Grid, x: nat): (column: seq<Cell>)
    requires IsGrid(g) && x < Side
    ensures |column| == Side && forall y :: 0 <= y < Side ==> column[y] == g[y][x]
  {
    seq(Side, y requires 0 <= y < Side => g[y][x])
  }

  /** The tokens already placed in column `x`. */
  function ColumnFor(g: Grid, x: nat): (column: set<Token>)
    requires IsGrid(g) && x < Side
    ensures forall t :: t in column <==> InColumn(g, x, t)
  {
    CollectExact(Column(g, x));
    Collect(Column(g, x))
  }

  /** The first cell column (or row) of the block holding column (or row) `v`. */
  function Corner(v: nat): nat {
    v / Block * Block
  }

  /** The cells of the block holding cell `(x, y)`, row by row from its
      top-left corner `(Corner(x), Corner(y))`. */
  function BlockCells(g: Grid, x: nat, y: nat): (cells: seq<Cell>)
    requires IsGrid(g) && x < Side && y < Side
    ensures |cells| == Side
  {
    var xo, yo := Corner(x), Corner(y);
    seq(Side, i requires 0 <= i < Side => g[yo + i / Block][xo + i % Block])
  }

  /** The tokens already placed in the block holding cell `(x, y)`. */
  function BlockFor(g: Grid, x: nat, y: nat): (block: set<Token>)
    requires IsGrid(g) && x < Side && y < Side
    ensures forall t :: t in block <==> InBlock(g, x, y, t)
  {
    BlockCellsExact(g, x, y);
    Collect(BlockCells(g, x, y))
  }

  /** Cell `(cx, cy)` lies in the same block as cell `(x, y)`. */
  predicate SameBlock(x: nat, y: nat, cx: nat, cy: nat) {
    cx / Block == x / Block && cy / Block == y / Block
  }

  /** The `i`-th cell of a block lies inside the grid, in that block. */
  lemma BlockCellPosition(x: nat, y: nat, i: nat)
    requires x < Side && y < Side && i < Side
    ensures Corner(x) + i % Block < Side && Corner(y) + i / Block < Side
    ensures SameBlock(x, y, Corner(x) + i % Block, Corner(y) + i / Block)
  {
  }

  /** Every cell of a block is the block's `i`-th cell for some `i`. */
  lemma BlockCellIndex(x: nat, y: nat, cx: nat, cy: nat) returns (i: nat)
    requires x < Side && y < Side && cx < Side && cy < Side && SameBlock(x, y, cx, cy)
    ensures i < Side && cx == Corner(x) + i % Block && cy == Corner(y) + i / Block
  {
    i := (cy - Corner(y)) * Block + (cx - Corner(x));
  }

  /** Collecting the cells of a block gives exactly the tokens of the
      `Solved` cells that share a block with cell `(x, y)`. */
  lemma BlockCellsExact(g: Grid, x: nat, y: nat)
    requires IsGrid(g) && x < Side && y < Side
    ensures forall t :: t in Collect(BlockCells(g, x, y)) <==> InBlock(g, x, y, t)
  {
    var cells := BlockCells(g, x, y);
    CollectExact(cells);
    forall t | t in Collect(cells)
      ensures InBlock(g, x, y, t)
    {
      var i :| 0 <= i < Side && cells[i] == Solved(t);
      BlockCellPosition(x, y, i);
      var cx, cy := Corner(x) + i % Block, Corner(y) + i / Block;
      assert g[cy][cx] == Solved(t);
    }
    forall t, cx, cy | 0 <= cx < Side && 0 <= cy < Side && SameBlock(x, y, cx, cy) && g[cy][cx] == Solved(t)
      ensures t in Collect(cells)
    {
      var i := BlockCellIndex(x, y, cx, cy);
      assert cells[i] == g[cy][cx];
    }
  }

  /** The block union depends only on which block a cell is in. */
  lemma BlockForSameBlock(g: Grid, x: nat, y: nat, x': nat, y': nat)
    requires IsGrid(g) && x < Side && y < Side && x' < Side && y' < Side
    requires SameBlock(x, y, x', y')
    ensures BlockFor(g, x, y) == BlockFor(g, x', y')
  {
    assert Corner(x) == Corner(x') && Corner(y) == Corner(y');
  }

  /** `a` and `b` hold the same `Solved` cells in the same places; they may
      differ only where both are `Unsolved`. */
  predicate SolvedAgree(a: Grid, b: Grid)
    requires IsGrid(a) && IsGrid(b)
  {
    forall y, x {:trigger a[y][x], b[y][x]} ::
      0 <= y < Side && 0 <= x < Side && (a[y][x].Solved? || b[y][x].Solved?) ==>
      a[y][x] == b[y][x]
  }

  /** The unions read only `Solved` cells, so grids that agree on those
      have the same unions everywhere. */
  lemma UnionsAgree(a: Grid, b: Grid, x: nat, y: nat)
    requires IsGrid(a) && IsGrid(b) && SolvedAgree(a, b)
    requires x < Side && y < Side
    ensures RowFor(a, y) == RowFor(b, y)
    ensures ColumnFor(a, x) == ColumnFor(b, x)
    ensures BlockFor(a, x, y) == BlockFor(b, x, y)
  {
    forall t ensures t in RowFor(a, y) <==> t in RowFor(b, y) {
      if t in RowFor(a, y) {
        var i :| 0 <= i < Side && a[y][i] == Solved(t);
        assert b[y][i] == Solved(t);
      }
      if t in RowFor(b, y) {
        var i :| 0 <= i < Side && b[y][i] == Solved(t);
        assert a[y][i] == Solved(t);
      }
    }
    forall t ensures t in ColumnFor(a, x) <==> t in ColumnFor(b, x) {
      if t in ColumnFor(a, x) {
        var j :| 0 <= j < Side && a[j][x] == Solved(t);
        assert b[j][x] == Solved(t);
      }
      if t in ColumnFor(b, x) {
        var j :| 0 <= j < Side && b[j][x] == Solved(t);
        assert a[j][x] == Solved(t);
      }
    }
    forall t ensures t in BlockFor(a, x, y) <==> t in BlockFor(b, x, y) {
      if t in BlockFor(a, x, y) {
        var cx, cy :| 0 <= cx < Side && 0 <= cy < Side && SameBlock(x, y, cx, cy) && a[cy][cx] == Solved(t);
        assert b[cy][cx] == Solved(t);
      }
      if t in BlockFor(b, x, y) {
        var cx, cy :| 0 <= cx < Side && 0 <= cy < Side && SameBlock(x, y, cx, cy) && b[cy][cx] == Solved(t);
        assert a[cy][cx] == Solved(t);
      }
    }
  }

  /** `UnionsAgree` at every index. */
  lemma UnionsAgreeEverywhere(a: Grid, b: Grid)
    requires IsGrid(a) && IsGrid(b) && SolvedAgree(a, b)
    ensures forall y :: 0 <= y < Side ==> RowFor(a, y) == RowFor(b, y)
    ensures forall x :: 0 <= x < Side ==> ColumnFor(a, x) == ColumnFor(b, x)
    ensures forall y, x :: 0 <= y < Side && 0 <= x < Side ==> BlockFor(a, x, y) == BlockFor(b, x, y)
  {
    forall v | 0 <= v < Side
      ensures RowFor(a, v) == RowFor(b, v) && ColumnFor(a, v) == ColumnFor(b, v)
    {
      UnionsAgree(a, b, v, v);
    }
    forall y, x | 0 <= y < Side && 0 <= x < Side
      ensures BlockFor(a, x, y) == BlockFor(b, x, y)
    {
      UnionsAgree(a, b, x, y);
    }
  }

  /** 1 for a `Solved` cell, 0 for an `Unsolved` one. */
  function SolvedBit(c: Cell): nat {
    if c.Solved? then 1 else 0
  }

  /** The number of `Solved` cells in a sequence of cells. */
  function CountSolved(cells: seq<Cell>): nat {
    if cells == [] then 0
    else CountSolved(cells[..|cells| - 1]) + SolvedBit(cells[|cells| - 1])
  }

  /** The number of `Solved` cells in a sequence of rows. */
  function SolvedCount(rows: seq<seq<Cell>>): nat {
    if rows == [] then 0
    else SolvedCount(rows[..|rows| - 1]) + CountSolved(rows[|rows| - 1])
  }

  /** Overwriting one cell changes the count by the difference of the two
      cells' `Solved` bits. */
  lemma {:induction false} CountSolvedUpdate(cells: seq<Cell>, i: nat, c: Cell)
    requires i < |cells|
    ensures CountSolved(cells[i := c]) + SolvedBit(cells[i]) == CountSolved(cells) + SolvedBit(c)
    decreases |cells|
  {
    var n := |cells| - 1;
    var cells' := cells[i := c];
    assert cells'[..n] == if i == n then cells[..n] else cells[..n][i := c];
    if i < n {
      CountSolvedUpdate(cells[..n], i, c);
    }
  }

  /** Overwriting one cell of a grid changes its count of `Solved` cells by
      the difference of the two cells' `Solved` bits. */
  lemma {:induction false} SolvedCountUpdate(rows: seq<seq<Cell>>, x: nat, y: nat, c: Cell)
    requires y < |rows| && x < |rows[y]|
    ensures SolvedCount(rows[y := rows[y][x := c]]) + SolvedBit(rows[y][x]) ==
            SolvedCount(rows) + SolvedBit(c)
    decreases |rows|
  {
    var n := |rows| - 1;
    var rows' := rows[y := rows[y][x := c]];
    assert rows'[..n] == if y == n then rows[..n] else rows[..n][y := rows[y][x := c]];
    if y < n {
      SolvedCountUpdate(rows[..n], x, y, c);
    } else {
      CountSolvedUpdate(rows[y], x, c);
    }
  }

  /** Sequences whose cells are `Solved` in the same places hold the same
      number of `Solved` cells. */
  lemma {:induction false} CountSolvedSameTags(a: seq<Cell>, b: seq<Cell>)
    requires |a| == |b|
    requires forall i :: 0 <= i < |a| ==> a[i].Solved? == b[i].Solved?
    ensures CountSolved(a) == CountSolved(b)
    decreases |a|
  {
    if a != [] {
      var n := |a| - 1;
      CountSolvedSameTags(a[..n], b[..n]);
    }
  }

  /** Rows whose cells are `Solved` in the same places hold the same number
      of `Solved` cells. */
  lemma {:induction false} SolvedCountSameTags(a: seq<seq<Cell>>, b: seq<seq<Cell>>)
    requires |a| == |b|
    requires forall y :: 0 <= y < |a| ==> |a[y]| == |b[y]|
    requires forall y, x :: 0 <= y < |a| && 0 <= x < |a[y]| ==> a[y][x].Solved? == b[y][x].Solved?
    ensures SolvedCount(a) == SolvedCount(b)
    decreases |a|
  {
    if a != [] {
      var n := |a| - 1;
      SolvedCountSameTags(a[..n], b[..n]);
      CountSolvedSameTags(a[n], b[n]);
    }
  }

  /** Cells can only become `Solved`, so the count never drops; it rises
      when some cell does become `Solved`. */
  lemma {:induction false} CountSolvedGrows(a: seq<Cell>, b: seq<Cell>)
    requires |a| == |b|
    requires forall i :: 0 <= i < |a| && a[i].Solved? ==> b[i].Solved?
    ensures CountSolved(a) <= CountSolved(b)
    ensures (exists i :: 0 <= i < |a| && a[i].Unsolved? && b[i].Solved?) ==> CountSolved(a) < CountSolved(b)
    decreases |a|
  {
    if a != [] {
      var n := |a| - 1;
      CountSolvedGrows(a[..n], b[..n]);
      if exists i :: 0 <= i < |a| && a[i].Unsolved? && b[i].Solved? {
        var i :| 0 <= i < |a| && a[i].Unsolved? && b[i].Solved?;
        if i < n {
          assert a[..n][i] == a[i] && b[..n][i] == b[i];
        }
      }
    }
  }

  /** `CountSolvedGrows` over the rows of a grid. */
  lemma {:induction false} SolvedCountGrows(a: seq<seq<Cell>>, b: seq<seq<Cell>>)
    requires |a| == |b|
    requires forall y :: 0 <= y < |a| ==> |a[y]| == |b[y]|
    requires forall y, x :: 0 <= y < |a| && 0 <= x < |a[y]| && a[y][x].Solved? ==> b[y][x].Solved?
    ensures SolvedCount(a) <= SolvedCount(b)
    ensures (exists y, x :: 0 <= y < |a| && 0 <= x < |a[y]| && a[y][x].Unsolved? && b[y][x].Solved?) ==>
      SolvedCount(a) < SolvedCount(b)
    decreases |a|
  {
    if a != [] {
      var n := |a| - 1;
      SolvedCountGrows(a[..n], b[..n]);
      CountSolvedGrows(a[n], b[n]);
      if exists y, x :: 0 <= y < |a| && 0 <= x < |a[y]| && a[y][x].Unsolved? && b[y][x].Solved? {
        var y, x :| 0 <= y < |a| && 0 <= x < |a[y]| && a[y][x].Unsolved? && b[y][x].Solved?;
        if y < n {
          assert a[..n][y] == a[y] && b[..n][y] == b[y];
        }
      }
    }
  }

  /** No sequence holds more `Solved` cells than cells. */
  lemma {:induction false} CountSolvedBound(cells: seq<Cell>)
    ensures CountSolved(cells) <= |cells|
    decreases |cells|
  {
    if cells != [] {
      CountSolvedBound(cells[..|cells| - 1]);
    }
  }

  /** A grid holds at most `Side * Side` `Solved` cells. */
  lemma GridSolvedBound(g: Grid)
    requires IsGrid(g)
    ensures SolvedCount(g) <= Side * Side
  {
    RowsSolvedBound(g);
  }

  lemma {:induction false} RowsSolvedBound(rows: seq<seq<Cell>>)
    requires |rows| <= Side && forall y :: 0 <= y < |rows| ==> |rows[y]| == Side
    ensures SolvedCount(rows) <= |rows| * Side
    decreases |rows|
  {
    if rows != [] {
      RowsSolvedBound(rows[..|rows| - 1]);
      CountSolvedBound(rows[|rows| - 1]);
    }
  }
}

=== FILE: setup.dfy ===
/** Building a grid from a matrix of digits, 0 for a blank cell and 1 to 9
    for a given, and the two fixture puzzles of the solver's tests. */
module Setup {
  import opened Tokens
  import opened Puzzle
  import opened Solver

  /** A digit outside 0 to 9, reported with the offending value. */
  datatype InvalidInput = InvalidInput(n: U8)

  /** The outcome of an operation that can fail: a value, or the error that
      stopped it. */
  datatype Result<T, E> = Ok(value: T) | Err(error: E)

  /** The token for a given digit; any byte outside 1 to 9 is rejected. */
  function TokenFromDigit(n: U8): (r: Result<Token, InvalidInput>)
    ensures r.Ok? <==> 1 <= n <= 9
    ensures r.Ok? ==> Digit(r.value) == n
    ensures r.Err? ==> r.error == InvalidInput(n)
  {
    match n
    case 1 => Ok(T1)
    case 2 => Ok(T2)
    case 3 => Ok(T3)
    case 4 => Ok(T4)
    case 5 => Ok(T5)
    case 6 => Ok(T6)
    case 7 => Ok(T7)
    case 8 => Ok(T8)
    case 9 => Ok(T9)
    case _ => Err(InvalidInput(n))
  }

  /** Reading back a token's digit gives the token. */
  lemma TokenFromDigitRoundTrip(t: Token)
    ensures TokenFromDigit(Digit(t) as U8) == Ok(t)
  {
  }

  /** An all-blank grid, which an all-zero matrix loads, is where the
      solver stalls at once: no cell is `Solved`, so pruning strikes
      nothing, and no cell is a singleton, so nothing is promoted. */
  lemma BlankGridStalls(g: Grid)
    requires IsGrid(g) && forall y, x :: 0 <= y < Side && 0 <= x < Side ==> g[y][x] == Unsolved(AllTokens)
    ensures Rounds(g) == g
  {
    assert |AllTokens| == 9;
    UnsolvedIsSettled(g);
    RoundsStalled(g);
  }

  /** The shape of an input: `Side` rows of `Side` bytes. */
  predicate IsMatrix(matrix: seq<seq<U8>>) {
    |matrix| == Side && forall y :: 0 <= y < Side ==> |matrix[y]| == Side
  }

  /** Every entry of `matrix` is a digit 0 to 9. */
  predicate ValidDigits(matrix: seq<seq<U8>>)
    requires IsMatrix(matrix)
  {
    forall y, x :: 0 <= y < Side && 0 <= x < Side ==> matrix[y][x] <= 9
  }

  /** `g` is what `matrix` describes: a blank is `Unsolved` with every
      token as candidate, and a given is `Solved` with the token of that
      digit. */
  predicate Loads(matrix: seq<seq<U8>>, g: Grid)
    requires IsMatrix(matrix) && IsGrid(g)
  {
    forall y, x :: 0 <= y < Side && 0 <= x < Side ==>
      (matrix[y][x] == 0 ==> g[y][x] == Unsolved(AllTokens)) &&
      (matrix[y][x] != 0 ==> g[y][x].Solved? && Digit(g[y][x].token) == matrix[y][x])
  }

  /** Start from a grid of blanks and fix every given, in row-major order.
      The first entry above 9 aborts the construction with that entry. */
  method NewPuzzle(matrix: seq<seq<U8>>) returns (r: Result<Grid, InvalidInput>)
    requires IsMatrix(matrix)
    ensures r.Ok? <==> ValidDigits(matrix)
    ensures r.Ok? ==> IsGrid(r.value) && Loads(matrix, r.value)
    ensures r.Err? ==> exists y, x :: (0 <= y < Side && 0 <= x < Side &&
      matrix[y][x] > 9 && r.error == InvalidInput(matrix[y][x]) &&
      forall i, j :: 0 <= j < Side && 0 <= i < Side && Before(i, j, x, y) ==> matrix[j][i] <= 9)
  {
    var blankRow := seq(Side, _ => Unsolved(AllTokens));
    var puzzle := seq(Side, _ => blankRow);
    var y := 0;
    while y < Side
      invariant 0 <= y <= Side
      invariant IsGrid(puzzle)
      invariant forall i, j :: 0 <= j < Side && 0 <= i < Side && Before(i, j, 0, y) ==> matrix[j][i] <= 9
      invariant forall i, j {:trigger puzzle[j][i]} :: 0 <= j < Side && 0 <= i < Side ==>
        if Before(i, j, 0, y) && matrix[j][i] != 0
        then puzzle[j][i].Solved? && Digit(puzzle[j][i].token) == matrix[j][i]
        else puzzle[j][i] == Unsolved(AllTokens)
    {
      var x := 0;
      while x < Side
        invariant 0 <= x <= Side
        invariant IsGrid(puzzle)
        invariant forall i, j :: 0 <= j < Side && 0 <= i < Side && Before(i, j, x, y) ==> matrix[j][i] <= 9
        invariant forall i, j {:trigger puzzle[j][i]} :: 0 <= j < Side && 0 <= i < Side ==>
          if Before(i, j, x, y) && matrix[j][i] != 0
          then puzzle[j][i].Solved? && Digit(puzzle[j][i].token) == matrix[j][i]
          else puzzle[j][i] == Unsolved(AllTokens)
      {
        if matrix[y][x] != 0 {
          var token := TokenFromDigit(matrix[y][x]);
          if token.Err? {
            return Err(token.error);
          }
          puzzle := puzzle[y := puzzle[y][x := Solved(token.value)]];
        }
        x := x + 1;
      }
      y := y + 1;
    }
    r := Ok(puzzle);
  }

  /** The digits of the first fixture puzzle. */
  const Puzzle1Digits: seq<seq<U8>> := [
    [8, 0, 5, 4, 0, 0, 0, 0, 0],
    [0, 0, 2, 0, 0, 0, 0, 4, 5],
    [0, 0, 0, 0, 6, 0, 2, 9, 0],
    [9, 4, 6, 0, 0, 0, 0, 1, 0],
    [0, 7, 0, 0, 9, 0, 0, 0, 0],
    [0, 2, 0, 7, 0, 5, 0, 3, 0],
    [0, 5, 0, 0, 0, 4, 7, 0, 2],
    [0, 8, 0, 0, 1, 0, 4, 0, 0],
    [4, 6, 0, 0, 5, 0, 3, 0, 0]
  ]

  /** The digits of the second fixture puzzle. */
  const Puzzle2Digits: seq<seq<U8>> := [
    [0, 0, 0, 1, 0, 5, 0, 7, 0],
    [2, 0, 0, 0, 0, 6, 0, 3, 0],
    [0, 0, 3, 0, 0, 8, 0, 4, 0],
    [0, 0, 5, 8, 0, 2, 0, 0, 3],
    [8, 0, 2, 0, 0, 4, 7, 0, 0],
    [1, 9, 6, 0, 0, 0, 4, 8, 0],
    [3, 7, 8, 0, 6, 0, 5, 1, 0],
    [4, 2, 0, 5, 0, 0, 3, 0, 0],
    [0, 6, 0, 4, 7, 3, 0, 2, 9]
  ]

  /** Both fixtures are well-formed inputs, so building them succeeds. */
  lemma FixturesAreValid()
    ensures IsMatrix(Puzzle1Digits) && ValidDigits(Puzzle1Digits)
    ensures IsMatrix(Puzzle2Digits) && ValidDigits(Puzzle2Digits)
  {
  }

  /** The first row of the first fixture has 8, 5 and 4 placed. */
  lemma RowForPuzzle1(g: Grid)
    requires IsMatrix(Puzzle1Digits) && IsGrid(g) && Loads(Puzzle1Digits, g)
    ensures RowFor(g, 0) == {T8, T5, T4}
  {
    forall t ensures t in RowFor(g, 0) <==> t in {T8, T5, T4} {
      if t in RowFor(g, 0) {
        var x :| 0 <= x < Side && g[0][x] == Solved(t);
        assert Digit(t) == Puzzle1Digits[0][x];
      }
      if t in {T8, T5, T4} {
        var x := if t == T8 then 0 else if t == T5 then 2 else 3;
        DigitInjective(g[0][x].token, t);
      }
    }
  }

  /** The first column of the first fixture has 8, 9 and 4 placed. */
  lemma ColumnForPuzzle1(g: Grid)
    requires IsMatrix(Puzzle1Digits) && IsGrid(g) && Loads(Puzzle1Digits, g)
    ensures ColumnFor(g, 0) == {T8, T9, T4}
  {
    forall t ensures t in ColumnFor(g, 0) <==> t in {T8, T9, T4} {
      if t in ColumnFor(g, 0) {
        var y :| 0 <= y < Side && g[y][0] == Solved(t);
        assert Digit(t) == Puzzle1Digits[y][0];
      }
      if t in {T8, T9, T4} {
        var y := if t == T8 then 0 else if t == T9 then 3 else 8;
        DigitInjective(g[y][0].token, t);
      }
    }
  }

  /** The top-left block of the first fixture has 8, 5 and 2 placed. */
  lemma TopLeftBlockPuzzle1(g: Grid)
    requires IsMatrix(Puzzle1Digits) && IsGrid(g) && Loads(Puzzle1Digits, g)
    ensures BlockFor(g, 0, 0) == {T8, T5, T2}
  {
    forall t ensures t in BlockFor(g, 0, 0) <==> t in {T8, T5, T2} {
      if t in BlockFor(g, 0, 0) {
        var cx, cy :| 0 <= cx < Side && 0 <= cy < Side && SameBlock(0, 0, cx, cy) && g[cy][cx] == Solved(t);
        assert cx < 3 && cy < 3;
        assert Digit(t) == Puzzle1Digits[cy][cx];
      }
      if t in {T8, T5, T2} {
        var cx, cy := if t == T8 then 0 else 2, if t == T2 then 1 else 0;
        assert SameBlock(0, 0, cx, cy);
        DigitInjective(g[cy][cx].token, t);
      }
    }
  }

  /** Seen from its last cell, the top-left block of the first fixture
      still has 8, 5 and 2 placed. */
  lemma TopLeftBlockFromLastCellPuzzle1(g: Grid)
    requires IsMatrix(Puzzle1Digits) && IsGrid(g) && Loads(Puzzle1Digits, g)
    ensures BlockFor(g, 2, 2) == {T8, T5, T2}
  {
    TopLeftBlockPuzzle1(g);
    BlockForSameBlock(g, 0, 0, 2, 2);
  }

  /** The centre block of the first fixture has 9, 7 and 5 placed. */
  lemma CentreBlockPuzzle1(g: Grid)
    requires IsMatrix(Puzzle1Digits) && IsGrid(g) && Loads(Puzzle1Digits, g)
    ensures BlockFor(g, 3, 3) == {T9, T7, T5}
  {
    forall t ensures t in BlockFor(g, 3, 3) <==> t in {T9, T7, T5} {
      if t in BlockFor(g, 3, 3) {
        var cx, cy :| 0 <= cx < Side && 0 <= cy < Side && SameBlock(3, 3, cx, cy) && g[cy][cx] == Solved(t);
        assert 3 <= cx < 6 && 3 <= cy < 6;
        assert Digit(t) == Puzzle1Digits[cy][cx];
      }
      if t in {T9, T7, T5} {
        var cx, cy := if t == T9 then 4 else if t == T7 then 3 else 5, if t == T9 then 4 else 5;
        assert SameBlock(3, 3, cx, cy);
        DigitInjective(g[cy][cx].token, t);
      }
    }
  }
}

=== FILE: solver.dfy ===
/** The elimination solver: `refine` strikes from every unsolved cell the
    tokens already placed in its row, column and block; `step` fixes every
    cell left with a single candidate; `solve` alternates the two until a
    step fixes nothing. `refine` and `step` overwrite cells of one grid in
    place; here each returns the grid it leaves behind. */
module Solver {
  import opened Tokens
  import opened Puzzle

  /** A cell of `puzzle` pruned against the unions of `puzzle` itself: the
      order-independent reading of one refine sweep. A `Solved` cell stays;
      an `Unsolved` cell keeps exactly the candidates that no `Solved` cell
      of its row, its column or its block holds. */
  function Pruned(puzzle: Grid, x: nat, y: nat): (c: Cell)
    requires IsGrid(puzzle) && x < Side && y < Side
    ensures puzzle[y][x].Solved? ==> c == puzzle[y][x]
    ensures puzzle[y][x].Unsolved? ==> c.Unsolved? && forall t :: t in c.candidates <==>
      t in puzzle[y][x].candidates && !InRow(puzzle, y, t) && !InColumn(puzzle, x, t) && !InBlock(puzzle, x, y, t)
  {
    match puzzle[y][x]
    case Solved(_) => puzzle[y][x]
    case Unsolved(c) =>
      Unsolved(c - RowFor(puzzle, y) - ColumnFor(puzzle, x) - BlockFor(puzzle, x, y))
  }

  /** An `Unsolved` cell with exactly one candidate. */
  predicate IsSingleton(c: Cell) {
    c.Unsolved? && |c.candidates| == 1
  }

  /** The cell `after` is a possible later state of the cell `before`: a
      `Solved` cell is frozen, and an `Unsolved` cell only loses candidates
      or is fixed to one of them. */
  predicate Narrows(before: Cell, after: Cell) {
    match before
    case Solved(_) => after == before
    case Unsolved(c) =>
      match after
      case Solved(t) => t in c
      case Unsolved(c') => c' <= c
  }

  /** `r` is `puzzle` with every cell promoted. */
  predicate PromotedFrom(puzzle: Grid, r: Grid)
    requires IsGrid(puzzle) && IsGrid(r)
  {
    forall y, x :: 0 <= y < Side && 0 <= x < Side ==> r[y][x] == Promote(puzzle[y][x])
  }

  /** No cell of `g` is a singleton, so a step has nothing to promote. */
  predicate NoSingleton(g: Grid)
    requires IsGrid(g)
  {
    forall y, x :: 0 <= y < Side && 0 <= x < Side ==> !IsSingleton(g[y][x])
  }

  /** Every cell of `after` narrows the cell in the same place in `before`. */
  predicate NarrowsAll(before: Grid, after: Grid)
    requires IsGrid(before) && IsGrid(after)
  {
    forall y, x :: 0 <= y < Side && 0 <= x < Side ==> Narrows(before[y][x], after[y][x])
  }

  /** No `Unsolved` cell of `g` keeps a candidate already placed in its row,
      its column or its block. */
  predicate Settled(g: Grid)
    requires IsGrid(g)
  {
    forall y, x :: 0 <= y < Side && 0 <= x < Side && g[y][x].Unsolved? ==>
      g[y][x].candidates !! RowFor(g, y) &&
      g[y][x].candidates !! ColumnFor(g, x) &&
      g[y][x].candidates !! BlockFor(g, x, y)
  }

  /** A grid with no `Solved` cell has empty unions, so it is settled. */
  lemma UnsolvedIsSettled(g: Grid)
    requires IsGrid(g) && forall y, x :: 0 <= y < Side && 0 <= x < Side ==> g[y][x].Unsolved?
    ensures Settled(g)
  {
    forall y, x | 0 <= y < Side && 0 <= x < Side && g[y][x].Unsolved?
      ensures g[y][x].candidates !! RowFor(g, y)
      ensures g[y][x].candidates !! ColumnFor(g, x)
      ensures g[y][x].candidates !! BlockFor(g, x, y)
    {
      assert forall t :: !InRow(g, y, t) && !InColumn(g, x, t) && !InBlock(g, x, y, t);
    }
  }

  /** What one step does to one cell: a singleton becomes `Solved` with its
      one candidate, and every other cell stays as it is. */
  function Promote(c: Cell): (r: Cell)
    ensures IsSingleton(c) ==> r.Solved? && c.candidates == {r.token}
    ensures !IsSingleton(c) ==> r == c
  {
    match c
    case Unsolved(candidates) =>
      if |candidates| == 1 then
        SingletonIsFirst(candidates);
        Solved(First(candidates))
      else c
    case Solved(_) => c
  }

  /** `r` is `puzzle` with every cell pruned against the unions of
      `puzzle`. */
  predicate PrunedFrom(puzzle: Grid, r: Grid)
    requires IsGrid(puzzle) && IsGrid(r)
  {
    forall y, x :: 0 <= y < Side && 0 <= x < Side ==> r[y][x] == Pruned(puzzle, x, y)
  }

  /** A pruned grid keeps every `Solved` cell, only narrows the `Unsolved`
      ones, has the same unions as the grid it was pruned from, and leaves no
      candidate that one of those unions already holds. */
  lemma PrunedProperties(puzzle: Grid, r: Grid)
    requires IsGrid(puzzle) && IsGrid(r) && PrunedFrom(puzzle, r)
    ensures SolvedAgree(r, puzzle)
    ensures forall y, x :: 0 <= y < Side && 0 <= x < Side ==>
      Narrows(puzzle[y][x], r[y][x]) && r[y][x].Solved? == puzzle[y][x].Solved?
    ensures forall y :: 0 <= y < Side ==> RowFor(r, y) == RowFor(puzzle, y)
    ensures forall x :: 0 <= x < Side ==> ColumnFor(r, x) == ColumnFor(puzzle, x)
    ensures forall y, x :: 0 <= y < Side && 0 <= x < Side ==> BlockFor(r, x, y) == BlockFor(puzzle, x, y)
    ensures Settled(r)
  {
    UnionsAgreeEverywhere(r, puzzle);
  }

  /** Pruning keeps every cell's tag, so it keeps the number of `Solved`
      cells. */
  lemma PrunedSolvedCount(puzzle: Grid, r: Grid)
    requires IsGrid(puzzle) && IsGrid(r) && PrunedFrom(puzzle, r)
    ensures SolvedCount(r) == SolvedCount(puzzle)
  {
    PrunedProperties(puzzle, r);
    SolvedCountSameTags(r, puzzle);
  }

  /** The state of a pruning sweep over `puzzle` that has visited every
      cell before `(x, y)`: those cells are pruned against the unions of
      `puzzle`, the rest are as they were, and no `Solved` cell has moved. */
  predicate PrunedBefore(puzzle: Grid, r: Grid, x: nat, y: nat)
    requires IsGrid(puzzle)
  {
    && IsGrid(r) && SolvedAgree(r, puzzle)
    && forall i, j {:trigger r[j][i]} :: 0 <= j < Side && 0 <= i < Side ==>
         r[j][i] == if Before(i, j, x, y) then Pruned(puzzle, i, j) else puzzle[j][i]
  }

  /** Pruning cell `(x, y)` of a partly swept grid `r` against the unions
      of `r` itself gives the same cell as pruning it against the unions of
      the grid the sweep started from, because the two grids agree on their
      `Solved` cells; the sweep's state moves on by one cell. */
  lemma PruneInPlace(puzzle: Grid, r: Grid, x: nat, y: nat)
    requires IsGrid(puzzle) && y < Side && x < Side && PrunedBefore(puzzle, r, x, y)
    ensures r[y][x].Unsolved? ==>
      var pruned := Unsolved(r[y][x].candidates - RowFor(r, y) - ColumnFor(r, x) - BlockFor(r, x, y));
      PrunedBefore(puzzle, r[y := r[y][x := pruned]], x + 1, y)
    ensures r[y][x].Solved? ==> PrunedBefore(puzzle, r, x + 1, y)
  {
    assert r[y][x] == puzzle[y][x];
    if r[y][x].Unsolved? {
      var pruned := Unsolved(r[y][x].candidates - RowFor(r, y) - ColumnFor(r, x) - BlockFor(r, x, y));
      UnionsAgree(r, puzzle, x, y);
    }
  }

  /** On a settled grid pruning has nothing left to strike: the grid it
      produces is the grid it started from. */
  lemma SettledIsPruneFixedPoint(g: Grid, r: Grid)
    requires IsGrid(g) && IsGrid(r) && Settled(g) && PrunedFrom(g, r)
    ensures r == g
  {
    forall y, x | 0 <= y < Side && 0 <= x < Side
      ensures r[y][x] == g[y][x]
    {
      if g[y][x].Unsolved? {
        var c := g[y][x].candidates;
        assert c - RowFor(g, y) - ColumnFor(g, x) - BlockFor(g, x, y) == c;
      }
    }
    assert forall y :: 0 <= y < Side ==> r[y] == g[y];
  }

  /** One sweep of candidate pruning, in row-major order. Each cell is
      pruned against the unions of the grid as the sweep has left it so far;
      since only `Unsolved` cells are overwritten, and only with `Unsolved`
      cells, those unions never change, and the result is the grid pruned
      against the unions of the grid the sweep started from. */
  method Refine(puzzle: Grid) returns (r: Grid)
    requires IsGrid(puzzle)
    ensures IsGrid(r) && PrunedFrom(puzzle, r)
  {
    r := puzzle;
    var y := 0;
    while y < Side
      invariant 0 <= y <= Side
      invariant PrunedBefore(puzzle, r, 0, y)
    {
      var x := 0;
      while x < Side
        invariant 0 <= x <= Side
        invariant PrunedBefore(puzzle, r, x, y)
      {
        PruneInPlace(puzzle, r, x, y);
        match r[y][x] {
          case Unsolved(candidates) =>
            r := r[y := r[y][x := Unsolved(candidates - RowFor(r, y) - ColumnFor(r, x) - BlockFor(r, x, y))]];
          case Solved(_) =>
        }
        x := x + 1;
      }
      y := y + 1;
    }
  }

  /** The state of a promotion sweep over `puzzle` that has visited every
      cell before `(x, y)`: those cells are promoted, the rest are as they
      were, and `solved` counts the singletons among the visited cells. */
  predicate PromotedBefore(puzzle: Grid, r: Grid, x: nat, y: nat, solved: int)
    requires IsGrid(puzzle)
  {
    && IsGrid(r) && 0 <= solved
    && SolvedCount(r) == SolvedCount(puzzle) + solved
    && (forall i, j {:trigger r[j][i]} :: 0 <= j < Side && 0 <= i < Side ==>
          r[j][i] == if Before(i, j, x, y) then Promote(puzzle[j][i]) else puzzle[j][i])
    && (solved == 0 <==> forall i, j :: 0 <= j < Side && 0 <= i < Side && Before(i, j, x, y) ==>
          !IsSingleton(puzzle[j][i]))
  }

  /** Visiting cell `(x, y)` promotes it exactly when it is a singleton, and
      the counter, which stays below the number of cells, follows. */
  lemma PromoteInPlace(puzzle: Grid, r: Grid, x: nat, y: nat, solved: int)
    requires IsGrid(puzzle) && y < Side && x < Side && PromotedBefore(puzzle, r, x, y, solved)
    ensures IsSingleton(r[y][x]) ==>
      PromotedBefore(puzzle, r[y := r[y][x := Promote(r[y][x])]], x + 1, y, solved + 1) &&
      solved + 1 <= Side * Side
    ensures !IsSingleton(r[y][x]) ==> PromotedBefore(puzzle, r, x + 1, y, solved)
  {
    assert r[y][x] == puzzle[y][x];
    if IsSingleton(r[y][x]) {
      var r' := r[y := r[y][x := Promote(r[y][x])]];
      SolvedCountUpdate(r, x, y, Promote(r[y][x]));
      GridSolvedBound(r');
      assert Before(x, y, x + 1, y) && IsSingleton(puzzle[y][x]);
    }
  }

  /** One promotion sweep, in row-major order: every singleton becomes
      `Solved`. `solved` is the byte-wide counter of promoted cells, which
      the number of cells bounds far below its wrap-around point. */
  method Step(puzzle: Grid) returns (r: Grid, solved: U8)
    requires IsGrid(puzzle)
    ensures IsGrid(r) && PromotedFrom(puzzle, r)
    ensures SolvedCount(r) == SolvedCount(puzzle) + solved
    ensures solved == 0 <==> NoSingleton(puzzle)
    ensures solved <= Side * Side
  {
    r, solved := puzzle, 0;
    var y := 0;
    while y < Side
      invariant 0 <= y <= Side
      invariant PromotedBefore(puzzle, r, 0, y, solved)
    {
      var x := 0;
      while x < Side
        invariant 0 <= x <= Side
        invariant PromotedBefore(puzzle, r, x, y, solved)
      {
        PromoteInPlace(puzzle, r, x, y, solved);
        match r[y][x] {
          case Unsolved(candidates) =>
            if |candidates| == 1 {
              assert Solved(First(candidates)) == Promote(r[y][x]);
              r := r[y := r[y][x := Solved(First(candidates))]];
              solved := solved + 1;
            }
          case Solved(_) =>
        }
        x := x + 1;
      }
      y := y + 1;
    }
    GridSolvedBound(r);
  }

  /** One round of `solve` only narrows cells. */
  lemma RoundNarrows(puzzle: Grid, r: Grid, refined: Grid, stepped: Grid)
    requires IsGrid(puzzle) && IsGrid(r) && IsGrid(refined) && IsGrid(stepped)
    requires NarrowsAll(puzzle, r) && PrunedFrom(r, refined) && PromotedFrom(refined, stepped)
    ensures NarrowsAll(puzzle, stepped)
  {
    forall y, x | 0 <= y < Side && 0 <= x < Side
      ensures Narrows(puzzle[y][x], stepped[y][x])
    {
      var a, b, c, d := puzzle[y][x], r[y][x], refined[y][x], stepped[y][x];
      assert c == Pruned(r, x, y) && d == Promote(c);
      NarrowsTransitive(a, b, c);
      NarrowsTransitive(a, c, d);
    }
  }

  /** Narrowing twice is narrowing. */
  lemma NarrowsTransitive(a: Cell, b: Cell, c: Cell)
    requires Narrows(a, b) && Narrows(b, c)
    ensures Narrows(a, c)
  {
  }

  /** A narrowed grid keeps every `Solved` cell, so each of its unions
      contains the same union of the grid it narrowed. */
  lemma NarrowingGrowsUnions(a: Grid, b: Grid, x: nat, y: nat)
    requires IsGrid(a) && IsGrid(b) && NarrowsAll(a, b) && x < Side && y < Side
    ensures RowFor(a, y) <= RowFor(b, y)
    ensures ColumnFor(a, x) <= ColumnFor(b, x)
    ensures BlockFor(a, x, y) <= BlockFor(b, x, y)
  {
    forall t | t in RowFor(a, y) ensures t in RowFor(b, y) {
      var i :| 0 <= i < Side && a[y][i] == Solved(t);
      assert Narrows(a[y][i], b[y][i]);
    }
    forall t | t in ColumnFor(a, x) ensures t in ColumnFor(b, x) {
      var j :| 0 <= j < Side && a[j][x] == Solved(t);
      assert Narrows(a[j][x], b[j][x]);
    }
    forall t | t in BlockFor(a, x, y) ensures t in BlockFor(b, x, y) {
      var cx, cy :| 0 <= cx < Side && 0 <= cy < Side && SameBlock(x, y, cx, cy) && a[cy][cx] == Solved(t);
      assert Narrows(a[cy][cx], b[cy][cx]);
    }
  }

  /** Every candidate an `Unsolved` cell of `r` has lost since `puzzle` is
      held by one of the cell's unions in `r`: solving removes a candidate
      only when a `Solved` cell of the row, column or block blocks it. */
  predicate KeepsUnblocked(puzzle: Grid, r: Grid)
    requires IsGrid(puzzle) && IsGrid(r)
  {
    forall y, x :: 0 <= y < Side && 0 <= x < Side && r[y][x].Unsolved? ==>
      puzzle[y][x].Unsolved? &&
      puzzle[y][x].candidates - (RowFor(r, y) + ColumnFor(r, x) + BlockFor(r, x, y)) <= r[y][x].candidates
  }

  /** One round of `solve` removes no candidate that the unions it leaves
      behind do not block. */
  lemma RoundKeepsUnblocked(puzzle: Grid, r: Grid, refined: Grid, stepped: Grid)
    requires IsGrid(puzzle) && IsGrid(r) && IsGrid(refined) && IsGrid(stepped)
    requires KeepsUnblocked(puzzle, r) && PrunedFrom(r, refined) && PromotedFrom(refined, stepped)
    ensures KeepsUnblocked(puzzle, stepped)
  {
    PrunedProperties(r, refined);
    assert NarrowsAll(refined, stepped);
    forall y, x | 0 <= y < Side && 0 <= x < Side && stepped[y][x].Unsolved?
      ensures puzzle[y][x].Unsolved?
      ensures puzzle[y][x].candidates - (RowFor(stepped, y) + ColumnFor(stepped, x) + BlockFor(stepped, x, y))
        <= stepped[y][x].candidates
    {
      NarrowingGrowsUnions(refined, stepped, x, y);
      assert stepped[y][x] == refined[y][x];
    }
  }

  /** On the grid `solve` stops at, each `Unsolved` cell holds exactly its
      initial candidates less the tokens its row, column and block hold. */
  lemma SettledCandidates(puzzle: Grid, r: Grid)
    requires IsGrid(puzzle) && IsGrid(r)
    requires NarrowsAll(puzzle, r) && Settled(r) && KeepsUnblocked(puzzle, r)
    ensures forall y, x :: 0 <= y < Side && 0 <= x < Side && r[y][x].Unsolved? ==>
      r[y][x].candidates == puzzle[y][x].candidates - (RowFor(r, y) + ColumnFor(r, x) + BlockFor(r, x, y))
  {
    forall y, x | 0 <= y < Side && 0 <= x < Side && r[y][x].Unsolved?
      ensures r[y][x].candidates == puzzle[y][x].candidates - (RowFor(r, y) + ColumnFor(r, x) + BlockFor(r, x, y))
    {
      assert Narrows(puzzle[y][x], r[y][x]);
    }
  }

  /** A step over a grid with no singleton promotes nothing and returns
      the grid it was given. */
  lemma IdleStep(g: Grid, stepped: Grid)
    requires IsGrid(g) && IsGrid(stepped)
    requires PromotedFrom(g, stepped) && NoSingleton(g)
    ensures stepped == g
  {
    assert forall y :: 0 <= y < Side ==> stepped[y] == g[y];
  }

  /** The grid one `refine` sweep leaves behind, built cell by cell.
      `PrunedFrom` says what such a grid holds, which is what the loop of
      `Refine` can establish; `Rounds` needs the grid itself as a value, and
      this is that value. */
  function PruneAll(g: Grid): (r: Grid)
    requires IsGrid(g)
    ensures IsGrid(r) && PrunedFrom(g, r)
  {
    seq(Side, y requires 0 <= y < Side => seq(Side, x requires 0 <= x < Side => Pruned(g, x, y)))
  }

  /** The grid one `step` sweep leaves behind, built cell by cell: the value
      that `PromotedFrom` describes, for `Rounds` to recur on. */
  function PromoteAll(g: Grid): (r: Grid)
    requires IsGrid(g)
    ensures IsGrid(r) && PromotedFrom(g, r)
  {
    seq(Side, y requires 0 <= y < Side => seq(Side, x requires 0 <= x < Side => Promote(g[y][x])))
  }

  /** Grids with the same cells are the same grid. */
  lemma SameCells(a: Grid, b: Grid)
    requires IsGrid(a) && IsGrid(b)
    requires forall y, x :: 0 <= y < Side && 0 <= x < Side ==> a[y][x] == b[y][x]
    ensures a == b
  {
    assert forall y :: 0 <= y < Side ==> a[y] == b[y];
  }

  /** A step over a grid that holds a singleton raises the number of
      `Solved` cells. */
  lemma PromoteRaisesCount(g: Grid, stepped: Grid)
    requires IsGrid(g) && IsGrid(stepped) && PromotedFrom(g, stepped) && !NoSingleton(g)
    ensures SolvedCount(g) < SolvedCount(stepped)
  {
    var y, x :| 0 <= y < Side && 0 <= x < Side && IsSingleton(g[y][x]);
    assert g[y][x].Unsolved? && stepped[y][x].Solved?;
    SolvedCountGrows(g, stepped);
  }

  /** What `solve` computes, as a recursion over rounds: prune every cell,
      promote every singleton, and stop once the pruned grid has no
      singleton left. */
  function Rounds(g: Grid): (r: Grid)
    requires IsGrid(g)
    ensures IsGrid(r)
    decreases Side * Side - SolvedCount(g)
  {
    GridSolvedBound(g);
    var refined := PruneAll(g);
    var stepped := PromoteAll(refined);
    if NoSingleton(refined) then
      stepped
    else
      PrunedSolvedCount(g, refined);
      PromoteRaisesCount(refined, stepped);
      Rounds(stepped)
  }

  /** One round of `solve`, taken by the sweeps `Refine` and `Step`, moves
      along `Rounds`: either it is the last round and its grid is the
      result, or the result is that of the rounds after it. */
  lemma RoundsStep(g: Grid, refined: Grid, stepped: Grid)
    requires IsGrid(g) && IsGrid(refined) && IsGrid(stepped)
    requires PrunedFrom(g, refined) && PromotedFrom(refined, stepped)
    ensures NoSingleton(refined) ==> Rounds(g) == stepped
    ensures !NoSingleton(refined) ==> Rounds(g) == Rounds(stepped)
  {
    SameCells(refined, PruneAll(g));
    SameCells(stepped, PromoteAll(refined));
  }

  /** A settled grid without singletons is where `solve` stalls: it comes
      back unchanged, with no guess made. */
  lemma RoundsStalled(g: Grid)
    requires IsGrid(g) && Settled(g) && NoSingleton(g)
    ensures Rounds(g) == g
  {
    var refined := PruneAll(g);
    SettledIsPruneFixedPoint(g, refined);
    IdleStep(refined, PromoteAll(refined));
  }

  /** Refine-then-step until a step promotes nothing. Every step that
      promotes a cell raises the number of `Solved` cells, which cannot
      exceed the number of cells, so the loop ends. The grid it ends on has
      no singleton left, every unsolved cell's candidates avoid the unions
      of its row, column and block, and every cell has only narrowed. */
  method Solve(puzzle: Grid) returns (r: Grid)
    requires IsGrid(puzzle)
    ensures IsGrid(r) && NarrowsAll(puzzle, r)
    ensures NoSingleton(r) && Settled(r)
    ensures forall y, x :: 0 <= y < Side && 0 <= x < Side && r[y][x].Unsolved? ==>
      r[y][x].candidates == puzzle[y][x].candidates - (RowFor(r, y) + ColumnFor(r, x) + BlockFor(r, x, y))
    ensures r == Rounds(puzzle)
    ensures Settled(puzzle) && NoSingleton(puzzle) ==> r == puzzle
  {
    r := puzzle;
    GridSolvedBound(r);
    while true
      invariant IsGrid(r) && NarrowsAll(puzzle, r) && KeepsUnblocked(puzzle, r)
      invariant Rounds(r) == Rounds(puzzle)
      invariant SolvedCount(r) <= Side * Side
      decreases Side * Side - SolvedCount(r)
    {
      var refined := Refine(r);
      PrunedSolvedCount(r, refined);
      var stepped, solved := Step(refined);
      RoundNarrows(puzzle, r, refined, stepped);
      RoundKeepsUnblocked(puzzle, r, refined, stepped);
      RoundsStep(r, refined, stepped);
      if solved == 0 {
        PrunedProperties(r, refined);
        IdleStep(refined, stepped);
        r := stepped;
        SettledCandidates(puzzle, r);
        break;
      }
      GridSolvedBound(stepped);
      r := stepped;
    }
    if Settled(puzzle) && NoSingleton(puzzle) {
      RoundsStalled(puzzle);
    }
  }
}

=== FILE: tokens.dfy ===
/** The vocabulary of the solver: the nine symbols a cell can hold, the order
    in which a candidate set enumerates them, and the machine byte used for
    digits and counters. */
module Tokens {

  /** The nine symbols, in declaration order; `T1` is the digit 1. */
  datatype Token = T1 | T2 | T3 | T4 | T5 | T6 | T7 | T8 | T9

  /** Every symbol: the candidate set of a blank cell. */
  const AllTokens: set<Token> := {T1, T2, T3, T4, T5, T6, T7, T8, T9}

  /** An unsigned 8-bit integer. */
  type U8 = n: int | 0 <= n < 256

  /** The digit a token stands for, which is also its position in
      declaration order, counting from 1. */
  function Digit(t: Token): (d: nat)
    ensures 1 <= d <= 9
  {
    match t
    case T1 => 1
    case T2 => 2
    case T3 => 3
    case T4 => 4
    case T5 => 5
    case T6 => 6
    case T7 => 7
    case T8 => 8
    case T9 => 9
  }

  /** Distinct tokens stand for distinct digits. */
  lemma DigitInjective(a: Token, b: Token)
    requires Digit(a) == Digit(b)
    ensures a == b
  {
  }

  /** The token an iteration over `s` yields first. A set of tokens is a
      bitset iterated from the lowest bit, so this is the member with the
      smallest digit. */
  function First(s: set<Token>): (t: Token)
    requires s != {}
    ensures t in s
    ensures forall u :: u in s ==> Digit(t) <= Digit(u)
  {
    if T1 in s then T1
    else if T2 in s then T2
    else if T3 in s then T3
    else if T4 in s then T4
    else if T5 in s then T5
    else if T6 in s then T6
    else if T7 in s then T7
    else if T8 in s then T8
    else
      assert T9 in s by {
        var u :| u in s;
        assert u.T9?;
      }
      T9
  }

  /** A one-element candidate set consists of exactly the token its
      iteration yields first. */
  lemma SingletonIsFirst(s: set<Token>)
    requires |s| == 1
    ensures s == {First(s)}
  {
    var t := First(s);
    assert |s - {t}| == 0;
    assert s - {t} == {};
  }
}
